=== FILE: README.md ===
# Product catalog: access rules, list filters and field validation

A Dafny model of the rules a small Django REST Framework product catalog adds on top
of the framework:

- **Permissions** (`products/views.py`). `IsAuthenticatedOrReadOnly` guards categories.
  `IsOwnerOrReadOnly` guards products. Reads (GET, HEAD, OPTIONS) are open to anyone.
  Any other method needs an authenticated caller. A write to one product also needs
  the caller to be its owner.
- **The product list filter** (`ProductViewSet.get_queryset`). The list is ordered newest
  first. It is narrowed by an inclusive `min_price`, an inclusive `max_price`, and an
  `in_stock` flag. The flag is stripped and lower-cased. "true", "1" or "yes" keeps the
  products with stock above zero. "false", "0" or "no" keeps those with zero stock. Any
  other value keeps everything.
- **Creation** (`perform_create`). The requester becomes the owner, whatever the payload says.
- **The serializer's validators** (`products/serializers.py`). A price must be present and
  positive. A stock quantity must be present and not negative. A name must be present and
  not blank, and it is stored stripped. `id`, `owner`, `created_at` and `category_name`
  are read-only.

Modules, one per concern:

| file | module | models |
|---|---|---|
| wrappers.dfy | `Wrappers` | `Option` (absent parameter or field) and `Result` (value or error) |
| text.dfy | `Text` | Python's `str.strip()` over the full `str.isspace` set, and `str.lower()` |
| sequences.dfy | `Sequences` | order-preserving `Filter`, the counterpart of one `qs.filter(...)` |
| catalog.dfy | `Catalog` | `Product`, `Caller`, `Method`; users are identified by primary key |
| permissions.dfy | `Permissions` | both permission classes, and the order in which the framework runs them |
| validation.dfy | `Validation` | `validate_price`, `validate_stock_quantity`, `validate_name` |
| queryset.dfy | `Queryset` | `get_queryset` as a sequence of filter steps, and its reference meaning |
| writes.dfy | `Writes` | create (with `perform_create`) and update (PUT and PATCH) |

Prices are whole cents (`int`). A product's `category` is the referenced category's id.

`get_queryset` is modelled in two ways:

- `ApplySteps` runs the filter steps one after another, as the code reassigns `qs`.
- `Matches` is the whole condition at once.

The lemmas show the two agree. They also show the order of the steps does not matter.

## Model

| member | source | states |
|---|---|---|
| `Permissions.AuthenticatedOrReadOnly` | products/views.py:9-12 | any caller may use a safe method; an anonymous caller may use only safe methods; an authenticated caller may use any method |
| `Permissions.OwnerOrReadOnly` | products/views.py:17-20 | the product views' view-level check allows every safe method, and allows any other method exactly when the caller is authenticated; it makes the same decision as `IsAuthenticatedOrReadOnly` for every method and caller |
| `Permissions.OwnerOrReadOnlyObject` | products/views.py:22-25 | a safe method is allowed on any product; any other method is allowed exactly when the caller is the product's owner, which implies the caller is authenticated |
| `Permissions.CheckProductAccess` | products/views.py:17-20 | a product list request is let through exactly when the method is safe or the caller is authenticated; otherwise it is refused as unauthenticated |
| `Permissions.CheckProductObjectAccess` | products/views.py:17-25 | a write to one product is let through exactly when the caller owns it; an anonymous writer is refused as unauthenticated and an authenticated non-owner as not permitted; reads always pass |
| `Validation.ValidatePrice` | products/serializers.py:31-36 | succeeds exactly for a present price above 0 and returns it unchanged; a missing price fails with "Price is required.", a price of 0 or less with "Price must be greater than 0." |
| `Validation.ValidateStock` | products/serializers.py:38-43 | succeeds exactly for a present quantity of 0 or more and returns it unchanged; a missing quantity fails with "Stock quantity is required.", a negative one with "Stock quantity cannot be negative." |
| `Validation.ValidateName` | products/serializers.py:45-48 | succeeds exactly when a name is present and not all whitespace (the empty name included); the result is the stripped name, non-empty and without whitespace at either end; every failure is "Name is required." |
| `Validation.ValidateNameIdempotent` | products/serializers.py:45-48 | validating an already validated name succeeds with the same name |
| `Text.Strip` | products/serializers.py:46-48 | the stripped string has no whitespace at either end and is empty exactly when the input is all whitespace |
| `Text.StripIsSlice` | products/serializers.py:48 | stripping removes only whitespace, and only from the two ends: the result is a contiguous slice of the input, and everything cut off is whitespace |
| `Text.StripIdempotent` | products/serializers.py:48 | stripping a stripped string changes nothing |
| `Text.Lower` | products/views.py:68 | lower-casing keeps the length and lower-cases each character in place |
| `Text.StripLowerCommute` | products/views.py:68 | stripping then lower-casing equals lower-casing then stripping |
| `Text.LowerIdempotent` | products/views.py:68 | lower-casing twice is lower-casing once |
| `Sequences.Filter` | products/views.py:55-72 | one filter step keeps exactly the elements its condition accepts, each as often as it occurs, and adds nothing |
| `Sequences.FilterIsSubsequence` | products/views.py:55-72 | a filter step deletes elements and never adds or reorders any |
| `Sequences.FilterCompose` | products/views.py:55-72 | two filter steps in a row equal one filter by the conjunction of their conditions |
| `Sequences.FilterCommute` | products/views.py:55-72 | two filter steps give the same result in either order |
| `Sequences.FilterPartition` | products/views.py:67-72 | two complementary conditions split a list between them |
| `Queryset.NormalizeFlag` | products/views.py:68 | the normalized `in_stock` word is no longer than the raw text and has no whitespace at either end |
| `Queryset.NormalizeFlagCanonical` | products/views.py:68 | normalizing strips and lower-cases in either order with the same word, and normalizing a normalized word changes nothing |
| `Queryset.ParseInStock` | products/views.py:67-72 | `in_stock` selects the in-stock filter exactly when it is sent and normalizes to "true", "1" or "yes", the out-of-stock filter exactly when it normalizes to "false", "0" or "no", and no stock filter when it is absent or anything else |
| `Queryset.StepsFor` | products/views.py:51-72 | the view applies at most three steps: a lower price bound exactly when `min_price` is given, an upper bound exactly when `max_price` is given, and a stock step exactly when `in_stock` selects a stock filter |
| `Queryset.ApplySteps` | products/views.py:55-72 | running the steps in turn keeps exactly the input products that pass every step, each as often as in the input, and never lengthens the list |
| `Queryset.GetQueryset` | products/views.py:46-74 | the result holds exactly the input products matching every given price bound and the `in_stock` condition, each as often as in the input, and it stays newest first when the input is |
| `Queryset.ApplyStepsIsConjunction` | products/views.py:55-72 | running the filter steps one after another equals one filter by their conjunction |
| `Queryset.StepsMeanMatches` | products/views.py:51-72 | the steps the view applies for given parameters accept a product exactly when the reference condition does |
| `Queryset.GetQuerysetIsFilter` | products/views.py:46-74 | the view's result equals a single filter of its input by the reference condition, order included |
| `Queryset.GetQuerysetIsSubsequence` | products/views.py:37-74 | the result is a subsequence of the input list |
| `Queryset.FilterKeepsNewestFirst` | products/views.py:37 | filtering a list ordered by creation time, newest first, leaves it ordered the same way |
| `Queryset.StepOrderIrrelevant` | products/views.py:55-72 | any two lists of filter steps with the same members, in whatever order or repetition, give the same result |
| `Queryset.InStockTrue` | products/views.py:67-70 | an `in_stock` value that strips and lower-cases to "true", "1" or "yes" gives exactly the input products with stock above 0, in order |
| `Queryset.InStockFalse` | products/views.py:67-72 | an `in_stock` value that strips and lower-cases to "false", "0" or "no" gives exactly the input products with stock 0, in order |
| `Queryset.InStockOther` | products/views.py:67-72 | no `in_stock` parameter, or any other value, leaves the list unchanged |
| `Queryset.PriceRange` | products/views.py:55-65 | with both bounds given, the result is exactly the input products with min ≤ price ≤ max, in order |
| `Queryset.ParseInStockIgnoresCaseAndPadding` | products/views.py:68 | two `in_stock` values that agree once lower-cased and stripped select the same filter |
| `Queryset.InStockSplitsCatalog` | products/views.py:67-72 | when no stock is negative, the "in stock" and "out of stock" results together have the size of the whole list |
| `Writes.Create` | products/views.py:76-77 | an anonymous creator is refused; for an authenticated one, creation succeeds exactly when the name is present and not blank, the price is present and positive, the category is present and the quantity is present and not negative; the stored product belongs to the caller, gets the server's id and time and the stripped name, takes the price, category and quantity sent, takes the description and image URL sent with surrounding whitespace trimmed, or the empty string when they are left out, and satisfies the product invariant; a validation failure always names at least one field |
| `Writes.Update` | products/serializers.py:12-48 | an anonymous caller is refused as unauthenticated and an authenticated non-owner as not permitted; for the owner, a PUT succeeds exactly when name, price, category and quantity are all sent and valid, and a PATCH exactly when every field it sends is valid; id, owner and creation time never change; each writable field takes the sent value (name, description and image URL stripped) or keeps the old one; the product invariant is kept, and a full update establishes it |
| `Writes.MergeText` | products/serializers.py:17-26 | a free-text field that is sent is stored as the sent text with its surrounding whitespace removed: a contiguous slice of it, cut only where the removed characters are whitespace, with no whitespace left at either end, and empty exactly when it was all whitespace; one not sent keeps its old value |
| `Writes.CreateIgnoresReadOnlyFields` | products/serializers.py:29 | a create payload's `id`, `owner`, `created_at` and `category_name` have no effect on the result |
| `Writes.UpdateIgnoresReadOnlyFields` | products/serializers.py:29 | the same for an update payload |

## Left out

- The search, ordering and category filter backends (products/views.py:41-44). Their matching and ordering rules live in the framework and in django-filter, not in this code.
- Parsing of `min_price` and `max_price`. The model takes them as already-parsed cents, with `None` meaning the bound is not applied. The code catches only `ValueError` around the ORM call (products/views.py:56-59, 62-65). Whether the ORM raises that for an unparseable value is not visible here, so the "ignored when unparseable" leniency is not modelled as such.
- `Writes.Create`, `Writes.Update`: the checks the serializer's generated model fields make on their own are not modelled, apart from trimming surrounding whitespace from text. That leaves out the blank check, which refuses a name that is empty after trimming with "This field may not be blank." before `validate_name` runs (the model reports "Name is required."). It also leaves out the database fields' length limits, the price's digit limits and the URL format check. The success condition therefore covers only the custom validators and the required fields. The field definitions live in the database model, which is not part of this model.
- The ordering `order_by("-created_at")` itself is done by the database. The model takes the input list as given and proves that the filters keep a newest-first order.
- `Text.Lower` lower-cases ASCII letters only. Python's `str.lower` covers all of Unicode. For the `in_stock` words this makes no difference. Only two non-ASCII characters lower-case to something that starts with an ASCII letter. The Kelvin sign U+212A becomes "k", and "k" appears in none of the words. U+0130 (capital I with dot above) becomes "i" followed by the combining dot U+0307. That dot is not whitespace and not in any word, so such a value still matches no word.
- `Writes.Create`: a description or image URL the client leaves out is stored as the empty string. That default belongs to the database model, which is not part of this model.
- `Writes.Create`, `Writes.Update`: a required field the client leaves out of a create or PUT is handed to its validator as `None`. The framework would reject it first with its own "This field is required." message. The model uses that message only for `category`, which has no validator of its own. Whether a category id refers to an existing category is checked by the framework and is not modelled. Which fields the database model makes required is not part of this model either.
- `Writes.Update`: the error order follows the framework. The view-level check comes first, then the object-level check, then validation. Looking up the product by id, and the not-found error, are framework code and are not modelled.
- Categories have no custom logic beyond `IsAuthenticatedOrReadOnly`. Their CRUD, and deleting products, are plain framework view sets.
- The ORM, `select_related`, JSON serialization, HTTP status codes, token authentication and everything in `accounts/` are left out. Registration, login and token issuing are thin wrappers over library code that is not part of this model.

=== FILE: catalog.dfy ===
/**
 The records of the product catalog and the shape of a request that reaches
 its views: the HTTP method and the caller's identity.
 */
module Catalog {

  /**
   A user, identified by primary key. Django compares model instances by
   primary key, so `obj.owner == request.user` is equality of these ids.
   */
  type UserId = nat

  /** The identity a request carries once token authentication has run. */
  datatype Caller = Anonymous | Authenticated(user: UserId)

  /** The HTTP methods a REST framework view dispatches on. */
  datatype Method = Get | Head | Options | Post | Put | Patch | Delete | Trace

  /**
   A stored product. Prices are whole cents; `createdAt` is the server-assigned
   creation time as a timestamp. `category` is the id of the referenced
   category.
   */
  datatype Product = Product(
    id: nat,
    owner: UserId,
    name: string,
    description: string,
    price: int,
    category: nat,
    stock: int,
    imageUrl: string,
    createdAt: int)
}

=== FILE: permissions.dfy ===
/**
 The two permission classes of the product views: `IsAuthenticatedOrReadOnly`
 (categories) and `IsOwnerOrReadOnly` (products), and the order in which the
 REST framework consults them.
 */
module Permissions {
  import opened Wrappers
  import opened Catalog

  /** The framework's `SAFE_METHODS`: GET, HEAD and OPTIONS. */
  predicate IsSafe(m: Method) {
    m.Get? || m.Head? || m.Options?
  }

  /**
   `IsAuthenticatedOrReadOnly.has_permission`: anyone may read; anything else
   needs an authenticated caller.
   */
  function AuthenticatedOrReadOnly(m: Method, caller: Caller): (allowed: bool)
    ensures IsSafe(m) ==> allowed
    ensures caller.Anonymous? ==> (allowed <==> IsSafe(m))
    ensures caller.Authenticated? ==> allowed
  {
    if IsSafe(m) then true else caller.Authenticated?
  }

  /**
   `IsOwnerOrReadOnly.has_permission`: the view-level check of the product
   views. Its code repeats `IsAuthenticatedOrReadOnly.has_permission` line for
   line, so both classes make the same decision for every method and caller.
   */
  function OwnerOrReadOnly(m: Method, caller: Caller): (allowed: bool)
    ensures IsSafe(m) ==> allowed
    ensures !IsSafe(m) ==> (allowed <==> caller.Authenticated?)
    ensures allowed == AuthenticatedOrReadOnly(m, caller)
  {
    AuthenticatedOrReadOnly(m, caller)
  }

  /**
   `IsOwnerOrReadOnly.has_object_permission`: anyone may read a product; a
   write needs the caller to be its owner. An anonymous caller is never the
   owner, since every product has one.
   */
  function OwnerOrReadOnlyObject(m: Method, caller: Caller, obj: Product): (allowed: bool)
    ensures IsSafe(m) ==> allowed
    ensures !IsSafe(m) ==> (allowed <==> caller == Authenticated(obj.owner))
    ensures !IsSafe(m) && allowed ==> caller.Authenticated?
  {
    if IsSafe(m) then true else caller.Authenticated? && caller.user == obj.owner
  }

  /** Why a request was refused before its handler ran. */
  datatype Denial =
    | NotAuthenticated   // the view-level check failed: an anonymous write
    | PermissionDenied   // the object-level check failed: not the owner

  /** The view-level check the framework runs on every product request. */
  function CheckProductAccess(m: Method, caller: Caller): (denial: Option<Denial>)
    ensures denial.None? <==> IsSafe(m) || caller.Authenticated?
    ensures denial.Some? ==> denial == Some(NotAuthenticated)
  {
    if OwnerOrReadOnly(m, caller) then None else Some(NotAuthenticated)
  }

  /**
   The checks the framework runs on a request for one product: the view-level
   check first, then the object-level one. A write gets through exactly when
   the caller owns the product; an anonymous writer is refused as
   unauthenticated, an authenticated non-owner as not permitted.
   */
  function CheckProductObjectAccess(m: Method, caller: Caller, obj: Product): (denial: Option<Denial>)
    ensures IsSafe(m) ==> denial.None?
    ensures !IsSafe(m) ==> (denial.None? <==> caller == Authenticated(obj.owner))
    ensures !IsSafe(m) && caller.Anonymous? ==> denial == Some(NotAuthenticated)
    ensures !IsSafe(m) && caller.Authenticated? && caller.user != obj.owner ==> denial == Some(PermissionDenied)
  {
    if !OwnerOrReadOnly(m, caller) then Some(NotAuthenticated)
    else if !OwnerOrReadOnlyObject(m, caller, obj) then Some(PermissionDenied)
    else None
  }
}

=== FILE: queryset.dfy ===
/**
 `ProductViewSet.get_queryset`: the product list, newest first, narrowed by
 the `min_price`, `max_price` and `in_stock` query parameters. Each parameter
 that applies adds one `filter(...)` step; the steps run one after another.
 */
module Queryset {
  import opened Wrappers
  import opened Text
  import opened Sequences
  import opened Catalog

  /**
   The query parameters this view reads itself. Price bounds are in cents and
   already parsed; `None` means the bound is not applied. `inStock` is the raw
   text of the parameter, if it was sent.
   */
  datatype FilterParams = FilterParams(minPrice: Option<int>, maxPrice: Option<int>, inStock: Option<string>)

  /** What the `in_stock` parameter asks for. */
  datatype StockFilter = InStockOnly | OutOfStockOnly | AnyStock

  const TrueWords: seq<string> := ["true", "1", "yes"]
  const FalseWords: seq<string> := ["false", "0", "no"]

  /**
   `in_stock` is compared after `strip()` and then `lower()`: the word is no
   longer than the raw text and has no whitespace at either end.
   */
  function NormalizeFlag(raw: string): (r: string)
    ensures |r| <= |raw|
    ensures IsStripped(r)
  {
    LowerKeepsStripped(Strip(raw));
    Lower(Strip(raw))
  }

  /**
   The normalized word does not depend on the order of `strip()` and
   `lower()`, and normalizing it again changes nothing.
   */
  lemma NormalizeFlagCanonical(raw: string)
    ensures NormalizeFlag(raw) == Strip(Lower(raw))
    ensures NormalizeFlag(NormalizeFlag(raw)) == NormalizeFlag(raw)
  {
    var w := NormalizeFlag(raw);
    StripLowerCommute(raw);
    LowerIdempotent(Strip(raw));
    StripOfStripped(w);
  }

  /** The stock filter an `in_stock` parameter selects; an unrecognised value selects none. */
  function ParseInStock(raw: Option<string>): (r: StockFilter)
    ensures r == InStockOnly <==> raw.Some? && NormalizeFlag(raw.value) in TrueWords
    ensures r == OutOfStockOnly <==> raw.Some? && NormalizeFlag(raw.value) in FalseWords
    ensures r == AnyStock <==> raw.None? || NormalizeFlag(raw.value) !in TrueWords + FalseWords
  {
    match raw
    case None => AnyStock
    case Some(v) =>
      var val := NormalizeFlag(v);
      FlagWordsDisjoint(val);
      if val in TrueWords then InStockOnly
      else if val in FalseWords then OutOfStockOnly
      else AnyStock
  }

  /** Whether a product passes a stock filter. */
  predicate StockMatches(mode: StockFilter, p: Product) {
    match mode
    case InStockOnly => p.stock > 0
    case OutOfStockOnly => p.stock == 0
    case AnyStock => true
  }

  /** One `qs.filter(...)` call of `get_queryset`. */
  datatype Step = AtLeastPrice(bound: int) | AtMostPrice(bound: int) | StockIs(mode: StockFilter)

  /** Whether a product passes one filter step. */
  predicate Keeps(step: Step, p: Product) {
    match step
    case AtLeastPrice(b) => p.price >= b
    case AtMostPrice(b) => p.price <= b
    case StockIs(mode) => StockMatches(mode, p)
  }

  /** The filter steps `get_queryset` applies, in the order it applies them. */
  function StepsFor(params: FilterParams): (steps: seq<Step>)
    ensures |steps| <= 3
    ensures forall b :: AtLeastPrice(b) in steps <==> params.minPrice == Some(b)
    ensures forall b :: AtMostPrice(b) in steps <==> params.maxPrice == Some(b)
    ensures forall mode :: StockIs(mode) in steps <==> mode != AnyStock && mode == ParseInStock(params.inStock)
  {
    var lo := if params.minPrice.Some? then [AtLeastPrice(params.minPrice.value)] else [];
    var hi := if params.maxPrice.Some? then [AtMostPrice(params.maxPrice.value)] else [];
    var stock := match ParseInStock(params.inStock)
      case AnyStock => []
      case mode => [StockIs(mode)];
    assert forall step :: step in lo + hi + stock <==> step in lo || step in hi || step in stock;
    lo + hi + stock
  }

  /** Runs the filter steps one after another, as the successive `qs = qs.filter(...)`. */
  function ApplySteps(qs: seq<Product>, steps: seq<Step>): (r: seq<Product>)
    ensures |r| <= |qs|
    ensures forall p :: p in r <==> p in qs && PassesAll(steps, p)
    ensures forall p :: multiset(r)[p] == if PassesAll(steps, p) then multiset(qs)[p] else 0
    decreases |steps|
  {
    if steps == [] then qs
    else
      PassesAllUnfoldAll(steps);
      ApplySteps(Filter(qs, StepFilter(steps[0])), steps[1..])
  }

  /** The keep-predicate of one step, as `Filter` takes it. */
  function StepFilter(step: Step): (keep: Product -> bool) {
    p => Keeps(step, p)
  }

  /** A product passes every step of `steps`. */
  predicate PassesAll(steps: seq<Step>, p: Product) {
    forall step :: step in steps ==> Keeps(step, p)
  }

  /** The keep-predicate of a whole list of steps. */
  function AllSteps(steps: seq<Step>): (keep: Product -> bool) {
    p => PassesAll(steps, p)
  }

  /**
   The reference meaning of the query: the inclusive price bounds that were
   given and the stock condition `in_stock` selects, all at once.
   */
  predicate Matches(params: FilterParams, p: Product) {
    && (params.minPrice.None? || params.minPrice.value <= p.price)
    && (params.maxPrice.None? || p.price <= params.maxPrice.value)
    && StockMatches(ParseInStock(params.inStock), p)
  }

  /** The keep-predicate of the reference condition. */
  function MatchFilter(params: FilterParams): (keep: Product -> bool) {
    p => Matches(params, p)
  }

  /** The list ordering of the view set: newest first (`order_by("-created_at")`). */
  predicate NewestFirst(qs: seq<Product>) {
    forall i, j :: 0 <= i < j < |qs| ==> qs[i].createdAt >= qs[j].createdAt
  }

  /**
   `get_queryset`: keeps exactly the products that match every applicable
   filter (each as often as it occurs in the input), and keeps the newest-first
   order of the list it narrows.
   */
  function GetQueryset(qs: seq<Product>, params: FilterParams): (r: seq<Product>)
    ensures forall p :: p in r <==> p in qs && Matches(params, p)
    ensures forall p :: multiset(r)[p] == if Matches(params, p) then multiset(qs)[p] else 0
    ensures NewestFirst(qs) ==> NewestFirst(r)
  {
    GetQuerysetIsFilter(qs, params);
    FilterKeepsNewestFirst(qs, MatchFilter(params));
    ApplySteps(qs, StepsFor(params))
  }

  /** Running the steps in sequence is one filter by their conjunction. */
  lemma {:induction false} ApplyStepsIsConjunction(qs: seq<Product>, steps: seq<Step>)
    ensures ApplySteps(qs, steps) == Filter(qs, AllSteps(steps))
    decreases |steps|
  {
    if steps == [] {
      FilterKeepsAll(qs, AllSteps(steps));
    } else {
      var first := StepFilter(steps[0]);
      var rest := AllSteps(steps[1..]);
      ApplyStepsIsConjunction(Filter(qs, first), steps[1..]);
      FilterCompose(qs, first, rest);
      forall p | p in qs
        ensures (first(p) && rest(p)) == PassesAll(steps, p)
      {
        PassesAllUnfold(steps, p);
      }
      FilterCongruence(qs, Both(first, rest), AllSteps(steps));
    }
  }

  lemma PassesAllUnfoldAll(steps: seq<Step>)
    requires steps != []
    ensures forall p :: PassesAll(steps, p) == (Keeps(steps[0], p) && PassesAll(steps[1..], p))
  {
    forall p {
      PassesAllUnfold(steps, p);
    }
  }

  lemma PassesAllUnfold(steps: seq<Step>, p: Product)
    requires steps != []
    ensures PassesAll(steps, p) == (Keeps(steps[0], p) && PassesAll(steps[1..], p))
  {
    assert forall step :: step in steps <==> step == steps[0] || step in steps[1..];
  }

  /** The steps `get_queryset` runs mean exactly the reference condition. */
  lemma StepsMeanMatches(params: FilterParams, p: Product)
    ensures PassesAll(StepsFor(params), p) <==> Matches(params, p)
  {
    var steps := StepsFor(params);
    if params.minPrice.Some? {
      assert AtLeastPrice(params.minPrice.value) in steps;
    }
    if params.maxPrice.Some? {
      assert AtMostPrice(params.maxPrice.value) in steps;
    }
    if !ParseInStock(params.inStock).AnyStock? {
      assert StockIs(ParseInStock(params.inStock)) in steps;
    }
  }

  /** `get_queryset` is a single filter of its input by the reference condition. */
  lemma GetQuerysetIsFilter(qs: seq<Product>, params: FilterParams)
    ensures ApplySteps(qs, StepsFor(params)) == Filter(qs, MatchFilter(params))
  {
    ApplyStepsIsConjunction(qs, StepsFor(params));
    forall p | p in qs
      ensures PassesAll(StepsFor(params), p) == Matches(params, p)
    {
      StepsMeanMatches(params, p);
    }
    FilterCongruence(qs, AllSteps(StepsFor(params)), MatchFilter(params));
  }

  /** Filtering a newest-first list leaves it newest first. */
  lemma {:induction false} FilterKeepsNewestFirst(qs: seq<Product>, keep: Product -> bool)
    ensures NewestFirst(qs) ==> NewestFirst(Filter(qs, keep))
  {
    if qs != [] && NewestFirst(qs) {
      var rest := Filter(qs[1..], keep);
      assert NewestFirst(qs[1..]);
      FilterKeepsNewestFirst(qs[1..], keep);
      if keep(qs[0]) {
        var r := [qs[0]] + rest;
        forall i, j | 0 <= i < j < |r|
          ensures r[i].createdAt >= r[j].createdAt
        {
          if i > 0 {
            assert r[i] == rest[i - 1] && r[j] == rest[j - 1];
          } else {
            assert r[j] in qs[1..];
            var m :| 0 <= m < |qs[1..]| && qs[1..][m] == r[j];
            assert qs[m + 1] == r[j];
          }
        }
      }
    }
  }

  /** Filters applied in any order, or repeated, give the same list: only which filters apply matters. */
  lemma StepOrderIrrelevant(qs: seq<Product>, steps1: seq<Step>, steps2: seq<Step>)
    requires forall step :: step in steps1 <==> step in steps2
    ensures ApplySteps(qs, steps1) == ApplySteps(qs, steps2)
  {
    ApplyStepsIsConjunction(qs, steps1);
    ApplyStepsIsConjunction(qs, steps2);
    FilterCongruence(qs, AllSteps(steps1), AllSteps(steps2));
  }

  /** The result never holds anything the input did not, and keeps the input's order. */
  lemma GetQuerysetIsSubsequence(qs: seq<Product>, params: FilterParams)
    ensures IsSubsequence(GetQueryset(qs, params), qs)
  {
    GetQuerysetIsFilter(qs, params);
    FilterIsSubsequence(qs, MatchFilter(params));
  }

  /** `in_stock` of "true", "1" or "yes" (any case, any padding) keeps exactly the products in stock. */
  lemma InStockTrue(qs: seq<Product>, flag: string)
    requires NormalizeFlag(flag) in TrueWords
    ensures GetQueryset(qs, FilterParams(None, None, Some(flag))) == Filter(qs, (p: Product) => p.stock > 0)
  {
    var params := FilterParams(None, None, Some(flag));
    assert ParseInStock(params.inStock) == InStockOnly;
    GetQuerysetIsFilter(qs, params);
    FilterCongruence(qs, MatchFilter(params), (p: Product) => p.stock > 0);
  }

  /** `in_stock` of "false", "0" or "no" (any case, any padding) keeps exactly the products out of stock. */
  lemma InStockFalse(qs: seq<Product>, flag: string)
    requires NormalizeFlag(flag) in FalseWords
    ensures GetQueryset(qs, FilterParams(None, None, Some(flag))) == Filter(qs, (p: Product) => p.stock == 0)
  {
    var params := FilterParams(None, None, Some(flag));
    FlagWordsDisjoint(NormalizeFlag(flag));
    assert ParseInStock(params.inStock) == OutOfStockOnly;
    GetQuerysetIsFilter(qs, params);
    FilterCongruence(qs, MatchFilter(params), (p: Product) => p.stock == 0);
  }

  /** No word means both "in stock" and "out of stock". */
  lemma FlagWordsDisjoint(w: string)
    ensures w in FalseWords ==> w !in TrueWords
  {
    if w in FalseWords {
      assert w == "false" || w == "0" || w == "no";
    }
  }

  /** Any other `in_stock` value, or none, leaves the list as it is. */
  lemma InStockOther(qs: seq<Product>, flag: Option<string>)
    requires flag.Some? ==> NormalizeFlag(flag.value) !in TrueWords + FalseWords
    ensures GetQueryset(qs, FilterParams(None, None, flag)) == qs
  {
    var params := FilterParams(None, None, flag);
    GetQuerysetIsFilter(qs, params);
    FilterKeepsAll(qs, MatchFilter(params));
  }

  /** The price bounds are inclusive at both ends. */
  lemma PriceRange(qs: seq<Product>, lo: int, hi: int)
    ensures GetQueryset(qs, FilterParams(Some(lo), Some(hi), None)) == Filter(qs, (p: Product) => lo <= p.price <= hi)
  {
    var params := FilterParams(Some(lo), Some(hi), None);
    GetQuerysetIsFilter(qs, params);
    FilterCongruence(qs, MatchFilter(params), (p: Product) => lo <= p.price <= hi);
  }

  /** The `in_stock` value is read regardless of letter case and surrounding whitespace. */
  lemma ParseInStockIgnoresCaseAndPadding(a: string, b: string)
    requires Strip(Lower(a)) == Strip(Lower(b))
    ensures ParseInStock(Some(a)) == ParseInStock(Some(b))
  {
    StripLowerCommute(a);
    StripLowerCommute(b);
  }

  /**
   Over a catalog whose quantities are not negative, "in stock" and "out of
   stock" split the list: every product appears in exactly one of the two.
   */
  lemma InStockSplitsCatalog(qs: seq<Product>, yes: string, no: string)
    requires forall p :: p in qs ==> p.stock >= 0
    requires NormalizeFlag(yes) in TrueWords && NormalizeFlag(no) in FalseWords
    ensures |GetQueryset(qs, FilterParams(None, None, Some(yes)))| + |GetQueryset(qs, FilterParams(None, None, Some(no)))| == |qs|
  {
    InStockTrue(qs, yes);
    InStockFalse(qs, no);
    FilterPartition(qs, (p: Product) => p.stock > 0, (p: Product) => p.stock == 0);
  }
}

=== FILE: sequences.dfy ===
/**
 Order-preserving filtering of sequences: the sequence counterpart of a
 database query's `filter(...)` clause.
 */
module Sequences {

  /** The elements of `s` that `keep` accepts, in their original order. */
  function Filter<T(!new)>(s: seq<T>, keep: T -> bool): (r: seq<T>)
    ensures |r| <= |s|
    ensures forall x :: x in r <==> x in s && keep(x)
    ensures forall x :: multiset(r)[x] == if keep(x) then multiset(s)[x] else 0
  {
    if s == [] then []
    else
      assert s == [s[0]] + s[1..];
      if keep(s[0]) then [s[0]] + Filter(s[1..], keep) else Filter(s[1..], keep)
  }

  /** `a` is obtained from `b` by deleting elements, without reordering the rest. */
  ghost predicate IsSubsequence<T(!new)>(a: seq<T>, b: seq<T>)
    decreases |b|
  {
    if a == [] then true
    else if b == [] then false
    else (a[0] == b[0] && IsSubsequence(a[1..], b[1..])) || IsSubsequence(a, b[1..])
  }

  /** Filtering deletes elements and never adds or reorders any. */
  lemma {:induction false} FilterIsSubsequence<T(!new)>(s: seq<T>, keep: T -> bool)
    ensures IsSubsequence(Filter(s, keep), s)
  {
    if s != [] {
      FilterIsSubsequence(s[1..], keep);
      var rest := Filter(s[1..], keep);
      if keep(s[0]) {
        assert ([s[0]] + rest)[1..] == rest;
      }
    }
  }

  /** Filters that agree on every element of `s` select the same subsequence. */
  lemma {:induction false} FilterCongruence<T(!new)>(s: seq<T>, p: T -> bool, q: T -> bool)
    requires forall x :: x in s ==> p(x) == q(x)
    ensures Filter(s, p) == Filter(s, q)
  {
    if s != [] {
      FilterCongruence(s[1..], p, q);
    }
  }

  /** A filter that accepts every element of `s` returns `s` unchanged. */
  lemma {:induction false} FilterKeepsAll<T(!new)>(s: seq<T>, keep: T -> bool)
    requires forall x :: x in s ==> keep(x)
    ensures Filter(s, keep) == s
  {
    if s != [] {
      FilterKeepsAll(s[1..], keep);
      assert [s[0]] + s[1..] == s;
    }
  }

  /** The conjunction of two keep-predicates. */
  function Both<T>(p: T -> bool, q: T -> bool): (keep: T -> bool) {
    x => p(x) && q(x)
  }

  /** Filtering twice is filtering once by the conjunction. */
  lemma {:induction false} FilterCompose<T(!new)>(s: seq<T>, p: T -> bool, q: T -> bool)
    ensures Filter(Filter(s, p), q) == Filter(s, Both(p, q))
  {
    if s != [] {
      FilterCompose(s[1..], p, q);
      if p(s[0]) {
        assert Filter(s, p) == [s[0]] + Filter(s[1..], p);
        assert ([s[0]] + Filter(s[1..], p))[1..] == Filter(s[1..], p);
      }
    }
  }

  /** Two filters applied one after the other commute. */
  lemma FilterCommute<T(!new)>(s: seq<T>, p: T -> bool, q: T -> bool)
    ensures Filter(Filter(s, p), q) == Filter(Filter(s, q), p)
  {
    FilterCompose(s, p, q);
    FilterCompose(s, q, p);
    FilterCongruence(s, Both(p, q), Both(q, p));
  }

  /** A filter and its negation split `s` between them. */
  lemma {:induction false} FilterPartition<T(!new)>(s: seq<T>, p: T -> bool, q: T -> bool)
    requires forall x :: x in s ==> p(x) != q(x)
    ensures |Filter(s, p)| + |Filter(s, q)| == |s|
  {
    if s != [] {
      FilterPartition(s[1..], p, q);
    }
  }
}

=== FILE: text.dfy ===
/**
 The two Python string operations the catalog relies on: `str.strip()` with no
 argument (remove leading and trailing whitespace) and `str.lower()`.
 */
module Text {

  /**
   Python's `str.isspace` for one character: the ASCII controls TAB to CR, the
   information separators FS to US, SPACE, and the non-ASCII whitespace below.
   */
  predicate IsSpace(c: char) {
    || ('\U{9}' <= c <= '\U{D}')
    || ('\U{1C}' <= c <= ' ')
    || ('\U{85}' <= c && Occurs(c, NonAsciiSpaces))
  }

  /** NEL, NO-BREAK SPACE, and the Unicode space, line and paragraph separators. */
  const NonAsciiSpaces: seq<char> := [
      '\U{85}', '\U{A0}', '\U{1680}', '\U{2000}', '\U{2001}', '\U{2002}', '\U{2003}', '\U{2004}',
      '\U{2005}', '\U{2006}', '\U{2007}', '\U{2008}', '\U{2009}', '\U{200A}', '\U{2028}', '\U{2029}',
      '\U{202F}', '\U{205F}', '\U{3000}'
    ]

  /**
   `c` is one of `chars`. Written recursively, rather than as `c in chars`, so
   that the solver looks at the table only as far as a proof needs.
   */
  predicate Occurs(c: char, chars: seq<char>) {
    chars != [] && (chars[0] == c || Occurs(c, chars[1..]))
  }

  /** `c` is an ASCII letter, the only characters `LowerChar` changes or produces. */
  predicate IsAsciiLetter(c: char) {
    ('A' <= c <= 'Z') || ('a' <= c <= 'z')
  }

  /** No whitespace character is an ASCII letter. */
  lemma SpaceIsNotLetter(c: char)
    requires IsSpace(c)
    ensures !IsAsciiLetter(c)
  {
  }

  /** Every character of `s` is whitespace (vacuously true of the empty string). */
  predicate AllSpace(s: string) {
    forall k :: 0 <= k < |s| ==> IsSpace(s[k])
  }

  /** `s` neither starts nor ends with whitespace. */
  predicate IsStripped(s: string) {
    s == [] || (!IsSpace(s[0]) && !IsSpace(s[|s| - 1]))
  }

  /** `str.lstrip()`: the longest suffix of `s` that does not start with whitespace. */
  function TrimStart(s: string): (r: string)
    ensures |r| <= |s| && r == s[|s| - |r|..]
    ensures forall k :: 0 <= k < |s| - |r| ==> IsSpace(s[k])
    ensures r != [] ==> !IsSpace(r[0])
  {
    if s != [] && IsSpace(s[0]) then TrimStart(s[1..]) else s
  }

  /** `str.rstrip()`: the longest prefix of `s` that does not end with whitespace. */
  function TrimEnd(s: string): (r: string)
    ensures |r| <= |s| && r == s[..|r|]
    ensures forall k :: |r| <= k < |s| ==> IsSpace(s[k])
    ensures r != [] ==> !IsSpace(r[|r| - 1])
  {
    if s != [] && IsSpace(s[|s| - 1]) then TrimEnd(s[..|s| - 1]) else s
  }

  /**
   `str.strip()`: `s` with its leading and trailing whitespace removed. What
   remains has no whitespace at either end, and it is empty exactly when `s`
   is all whitespace. `StripIsSlice` says what was removed.
   */
  function Strip(s: string): (r: string)
    ensures |r| <= |s|
    ensures IsStripped(r)
    ensures r == [] <==> AllSpace(s)
  {
    StripLeavesNoSpaceAtEnds(s);
    StripEmptyIffAllSpace(s);
    TrimEnd(TrimStart(s))
  }

  /** The number of whitespace characters `str.lstrip()` removes from `s`. */
  function LeadingSpace(s: string): (n: nat)
    ensures n <= |s|
    ensures forall k :: 0 <= k < n ==> IsSpace(s[k])
    ensures n < |s| ==> !IsSpace(s[n])
  {
    |s| - |TrimStart(s)|
  }

  /**
   `Strip` removes whitespace and nothing else, and only at the two ends: the
   result is the slice of `s` that starts after the leading whitespace, and
   every character cut off on either side is whitespace.
   */
  lemma StripIsSlice(s: string)
    ensures LeadingSpace(s) + |Strip(s)| <= |s|
    ensures Strip(s) == s[LeadingSpace(s)..LeadingSpace(s) + |Strip(s)|]
    ensures forall k :: 0 <= k < LeadingSpace(s) ==> IsSpace(s[k])
    ensures forall k :: LeadingSpace(s) + |Strip(s)| <= k < |s| ==> IsSpace(s[k])
  {
    var i := LeadingSpace(s);
    assert TrimStart(s) == s[i..];
    assert Strip(s) == TrimEnd(s[i..]);
    TrimEndOfSuffix(s, i);
  }

  /** Trimming the end of the suffix `s[i..]` leaves a slice of `s` followed only by whitespace. */
  lemma TrimEndOfSuffix(s: string, i: nat)
    requires i <= |s|
    ensures i + |TrimEnd(s[i..])| <= |s|
    ensures TrimEnd(s[i..]) == s[i..i + |TrimEnd(s[i..])|]
    ensures forall k :: i + |TrimEnd(s[i..])| <= k < |s| ==> IsSpace(s[k])
  {
    var t := s[i..];
    var r := TrimEnd(t);
    assert r == t[..|r|];
    forall k | i + |r| <= k < |s|
      ensures IsSpace(s[k])
    {
      assert s[k] == t[k - i];
    }
  }

  /** The facts behind the contract of `Strip`, about `TrimEnd(TrimStart(s))`. */
  lemma StripLeavesNoSpaceAtEnds(s: string)
    ensures IsStripped(TrimEnd(TrimStart(s)))
  {
    var t := TrimStart(s);
    var r := TrimEnd(t);
    if r != [] {
      assert r[0] == t[0];
    }
  }

  lemma StripEmptyIffAllSpace(s: string)
    ensures TrimEnd(TrimStart(s)) == [] <==> AllSpace(s)
  {
    var t := TrimStart(s);
    var r := TrimEnd(t);
    var i := |s| - |t|;
    if r != [] {
      assert r[0] == t[0];
      assert t[0] == s[i];
    }
  }

  /** A stripped string is its own strip. */
  lemma StripOfStripped(s: string)
    requires IsStripped(s)
    ensures Strip(s) == s
  {
  }

  /** Stripping is idempotent. */
  lemma StripIdempotent(s: string)
    ensures Strip(Strip(s)) == Strip(s)
  {
    StripOfStripped(Strip(s));
  }

  /** `str.lower()` on one character, for the ASCII letters. */
  function LowerChar(c: char): (r: char) {
    if 'A' <= c <= 'Z' then (c as int - 'A' as int + 'a' as int) as char else c
  }

  /** `str.lower()`: each character of `s` lower-cased, in place. */
  function Lower(s: string): (r: string)
    ensures |r| == |s|
    ensures forall k :: 0 <= k < |s| ==> r[k] == LowerChar(s[k])
  {
    if s == [] then [] else [LowerChar(s[0])] + Lower(s[1..])
  }

  /** Lower-casing never turns whitespace into non-whitespace or back. */
  lemma LowerCharKeepsSpace(c: char)
    ensures IsSpace(LowerChar(c)) <==> IsSpace(c)
  {
    if IsSpace(c) {
      SpaceIsNotLetter(c);
    }
    if IsSpace(LowerChar(c)) {
      SpaceIsNotLetter(LowerChar(c));
    }
  }

  /** Lower-casing a stripped string leaves it stripped. */
  lemma LowerKeepsStripped(s: string)
    requires IsStripped(s)
    ensures IsStripped(Lower(s))
  {
    if s != [] {
      LowerCharKeepsSpace(s[0]);
      LowerCharKeepsSpace(s[|s| - 1]);
    }
  }

  lemma {:induction false} TrimStartLowerCommute(s: string)
    ensures TrimStart(Lower(s)) == Lower(TrimStart(s))
    decreases |s|
  {
    if s != [] {
      LowerCharKeepsSpace(s[0]);
      if IsSpace(s[0]) {
        assert Lower(s)[1..] == Lower(s[1..]);
        TrimStartLowerCommute(s[1..]);
      }
    }
  }

  lemma {:induction false} TrimEndLowerCommute(s: string)
    ensures TrimEnd(Lower(s)) == Lower(TrimEnd(s))
    decreases |s|
  {
    if s != [] {
      LowerCharKeepsSpace(s[|s| - 1]);
      if IsSpace(s[|s| - 1]) {
        assert Lower(s)[..|s| - 1] == Lower(s[..|s| - 1]);
        TrimEndLowerCommute(s[..|s| - 1]);
      }
    }
  }

  /** Stripping and lower-casing commute, so `s.strip().lower()` equals `s.lower().strip()`. */
  lemma StripLowerCommute(s: string)
    ensures Strip(Lower(s)) == Lower(Strip(s))
  {
    TrimStartLowerCommute(s);
    TrimEndLowerCommute(TrimStart(s));
  }

  /** Lower-casing is idempotent. */
  lemma LowerIdempotent(s: string)
    ensures Lower(Lower(s)) == Lower(s)
  {
  }
}

=== FILE: validation.dfy ===
/**
 The field validators of the product serializer. Each receives the field's
 value, `None` when the client sent none, and either returns the value to
 store or fails with the serializer's message.
 */
module Validation {
  import opened Wrappers
  import opened Text

  const PriceRequired: string := "Price is required."
  const PriceNotPositive: string := "Price must be greater than 0."
  const StockRequired: string := "Stock quantity is required."
  const StockNegative: string := "Stock quantity cannot be negative."
  const NameRequired: string := "Name is required."

  /** `validate_price`: a price must be present and strictly positive; it is kept as given. */
  function ValidatePrice(value: Option<int>): (r: Result<int, string>)
    ensures r.Success? <==> value.Some? && value.value > 0
    ensures r.Success? ==> r.value == value.value
    ensures value.None? ==> r == Failure(PriceRequired)
    ensures value.Some? && value.value <= 0 ==> r == Failure(PriceNotPositive)
  {
    match value
    case None => Failure(PriceRequired)
    case Some(v) => if v <= 0 then Failure(PriceNotPositive) else Success(v)
  }

  /** `validate_stock_quantity`: a quantity must be present and not negative; zero is fine. */
  function ValidateStock(value: Option<int>): (r: Result<int, string>)
    ensures r.Success? <==> value.Some? && value.value >= 0
    ensures r.Success? ==> r.value == value.value
    ensures value.None? ==> r == Failure(StockRequired)
    ensures value.Some? && value.value < 0 ==> r == Failure(StockNegative)
  {
    match value
    case None => Failure(StockRequired)
    case Some(v) => if v < 0 then Failure(StockNegative) else Success(v)
  }

  /**
   `validate_name`: a name must be present and contain something other than
   whitespace; what is stored is the name with surrounding whitespace removed,
   which is non-empty and itself has none left at either end.
   */
  function ValidateName(value: Option<string>): (r: Result<string, string>)
    ensures r.Success? <==> value.Some? && !AllSpace(value.value)
    ensures r.Success? ==> r.value != [] && IsStripped(r.value)
    ensures r.Success? ==> r.value == Strip(value.value)
    ensures r.Failure? ==> r.error == NameRequired
  {
    match value
    case None => Failure(NameRequired)
    case Some(v) => if v == [] || Strip(v) == [] then Failure(NameRequired) else Success(Strip(v))
  }

  /** Validating a name that has already been validated returns it unchanged. */
  lemma ValidateNameIdempotent(value: Option<string>)
    requires ValidateName(value).Success?
    ensures ValidateName(Some(ValidateName(value).value)) == ValidateName(value)
  {
    StripIdempotent(value.value);
  }
}

=== FILE: wrappers.dfy ===
/** Optional values and results used across the catalog model. */
module Wrappers {

  /** An optional value: a query parameter or payload field that may be absent. */
  datatype Option<+T> = None | Some(value: T)

  /** The outcome of a validator or a write: a value or an error. */
  datatype Result<+R, +E> = Success(value: R) | Failure(error: E)
}

=== FILE: writes.dfy ===
/**
 Creating and updating a product through the product view set: the
 permission checks, the serializer's field validation, its read-only fields,
 and `perform_create`, which makes the requester the owner.
 */
module Writes {
  import opened Wrappers
  import opened Text
  import opened Catalog
  import opened Permissions
  import opened Validation

  /**
   The fields a client may send for a product, each `None` when not sent.
   `id`, `owner`, `categoryName` and `createdAt` are read-only: the serializer
   accepts them in the payload but never uses them.
   */
  datatype ProductInput = ProductInput(
    id: Option<nat>,
    owner: Option<UserId>,
    name: Option<string>,
    description: Option<string>,
    price: Option<int>,
    category: Option<nat>,
    categoryName: Option<string>,
    stock: Option<int>,
    imageUrl: Option<string>,
    createdAt: Option<int>)

  /** `input` with the serializer's `read_only_fields` dropped: all it reads of a payload. */
  function Writable(input: ProductInput): (r: ProductInput) {
    input.(id := None, owner := None, categoryName := None, createdAt := None)
  }

  /** A field-level error as the serializer reports it. */
  datatype FieldError = FieldError(field: string, message: string)

  /** Why a create or update did not happen. */
  datatype WriteError = Denied(denial: Denial) | Invalid(errors: seq<FieldError>)

  /** The message for a required field that has no validator of its own. */
  const FieldRequired: string := "This field is required."

  /** The error, if any, one validator's result contributes for `field`. */
  function ErrorsOf<T>(field: string, r: Result<T, string>): (errors: seq<FieldError>) {
    if r.Failure? then [FieldError(field, r.error)] else []
  }

  /**
   The field errors of a payload. On a full write (create, PUT) a field the
   client left out goes to its validator as `None`; on a partial write (PATCH)
   a field left out is not validated at all.
   */
  function FieldErrors(input: ProductInput, partial: bool): (errors: seq<FieldError>) {
    (if partial && input.name.None? then [] else ErrorsOf("name", ValidateName(input.name)))
    + (if partial && input.price.None? then [] else ErrorsOf("price", ValidatePrice(input.price)))
    + (if partial || input.category.Some? then [] else [FieldError("category", FieldRequired)])
    + (if partial && input.stock.None? then [] else ErrorsOf("stock_quantity", ValidateStock(input.stock)))
  }

  /** The invariant of a stored product that the validators establish. */
  predicate ValidProduct(p: Product) {
    && p.name != [] && IsStripped(p.name)
    && p.price > 0
    && p.stock >= 0
  }

  /**
   POST to the product list: an anonymous caller is refused; otherwise the
   payload is validated and the product is stored with the caller as owner,
   the server's id and creation time, and the client's writable fields. No
   value the client sends for a read-only field has any effect.
   */
  function Create(caller: Caller, input: ProductInput, newId: nat, now: int): (r: Result<Product, WriteError>)
    ensures caller.Anonymous? ==> r == Failure(Denied(NotAuthenticated))
    ensures caller.Authenticated? ==>
      (r.Success? <==>
        && input.name.Some? && !AllSpace(input.name.value)
        && input.price.Some? && input.price.value > 0
        && input.category.Some?
        && input.stock.Some? && input.stock.value >= 0)
    ensures r.Success? ==>
      && caller.Authenticated?
      && r.value.owner == caller.user
      && r.value.id == newId
      && r.value.createdAt == now
      && r.value.name == Strip(input.name.value)
      && r.value.price == input.price.value
      && r.value.category == input.category.value
      && r.value.stock == input.stock.value
      && r.value.description == (if input.description.Some? then Strip(input.description.value) else "")
      && r.value.imageUrl == (if input.imageUrl.Some? then Strip(input.imageUrl.value) else "")
      && ValidProduct(r.value)
    ensures r.Failure? && r.error.Invalid? ==> r.error.errors != []
  {
    match CheckProductAccess(Post, caller)
    case Some(denial) => Failure(Denied(denial))
    case None =>
      var errors := FieldErrors(input, false);
      if errors != [] then Failure(Invalid(errors))
      else
        Success(Product(
          id := newId,
          owner := caller.user,
          name := ValidateName(input.name).value,
          description := MergeText(input.description, ""),
          price := input.price.value,
          category := input.category.value,
          stock := input.stock.value,
          imageUrl := MergeText(input.imageUrl, ""),
          createdAt := now))
  }

  /** The value to store for a field: the client's if sent, otherwise the existing one. */
  function Merge<T>(sent: Option<T>, existing: T): (r: T) {
    if sent.Some? then sent.value else existing
  }

  /**
   The value to store for a free-text field. The serializer's generated text
   field trims surrounding whitespace from what the client sends; a field
   not sent keeps the existing value.
   */
  function MergeText(sent: Option<string>, existing: string): (r: string)
    ensures sent.None? ==> r == existing
    ensures sent.Some? ==> IsStripped(r) && |r| <= |sent.value|
    ensures sent.Some? ==> (r == [] <==> AllSpace(sent.value))
    ensures sent.Some? ==>
      && LeadingSpace(sent.value) + |r| <= |sent.value|
      && r == sent.value[LeadingSpace(sent.value)..LeadingSpace(sent.value) + |r|]
      && forall k :: LeadingSpace(sent.value) + |r| <= k < |sent.value| ==> IsSpace(sent.value[k])
  {
    if sent.Some? then StripIsSlice(sent.value); Strip(sent.value) else existing
  }

  /**
   PUT (`partial` false) or PATCH (`partial` true) on one product: only its
   owner gets through the permission checks; the payload is then validated
   and applied. The id, owner and creation time never change, and neither
   does a field the client did not send.
   */
  function Update(caller: Caller, existing: Product, input: ProductInput, partial: bool): (r: Result<Product, WriteError>)
    ensures r.Success? ==> caller == Authenticated(existing.owner)
    ensures caller.Anonymous? ==> r == Failure(Denied(NotAuthenticated))
    ensures caller.Authenticated? && caller.user != existing.owner ==> r == Failure(Denied(PermissionDenied))
    ensures caller == Authenticated(existing.owner) ==>
      (r.Success? <==>
        && (input.name.Some? ==> !AllSpace(input.name.value))
        && (input.price.Some? ==> input.price.value > 0)
        && (input.stock.Some? ==> input.stock.value >= 0)
        && (!partial ==> input.name.Some? && input.price.Some? && input.category.Some? && input.stock.Some?))
    ensures r.Failure? && r.error.Invalid? ==> r.error.errors != []
    ensures r.Success? ==>
      && r.value.id == existing.id
      && r.value.owner == existing.owner
      && r.value.createdAt == existing.createdAt
    ensures r.Success? ==>
      && r.value.name == (if input.name.Some? then Strip(input.name.value) else existing.name)
      && r.value.price == Merge(input.price, existing.price)
      && r.value.stock == Merge(input.stock, existing.stock)
      && r.value.category == Merge(input.category, existing.category)
      && r.value.description == (if input.description.Some? then Strip(input.description.value) else existing.description)
      && r.value.imageUrl == (if input.imageUrl.Some? then Strip(input.imageUrl.value) else existing.imageUrl)
    ensures r.Success? && ValidProduct(existing) ==> ValidProduct(r.value)
    ensures r.Success? && !partial ==> ValidProduct(r.value)
  {
    var m := if partial then Patch else Put;
    match CheckProductObjectAccess(m, caller, existing)
    case Some(denial) => Failure(Denied(denial))
    case None =>
      var errors := FieldErrors(input, partial);
      if errors != [] then Failure(Invalid(errors))
      else
        Success(existing.(
          name := if input.name.Some? then ValidateName(input.name).value else existing.name,
          description := MergeText(input.description, existing.description),
          price := Merge(input.price, existing.price),
          category := Merge(input.category, existing.category),
          stock := Merge(input.stock, existing.stock),
          imageUrl := MergeText(input.imageUrl, existing.imageUrl)))
  }

  /** The read-only fields of a create payload are ignored. */
  lemma CreateIgnoresReadOnlyFields(caller: Caller, input: ProductInput, newId: nat, now: int)
    ensures Create(caller, input, newId, now) == Create(caller, Writable(input), newId, now)
  {
  }

  /** The read-only fields of an update payload are ignored. */
  lemma UpdateIgnoresReadOnlyFields(caller: Caller, existing: Product, input: ProductInput, partial: bool)
    ensures Update(caller, existing, input, partial) == Update(caller, existing, Writable(input), partial)
  {
  }
}
